=== FILE: README.md ===
# Croissant Catchers — a Dafny model of the game rules

Croissant Catchers is a browser mini-game: croissants fall down a canvas, the
player steers a basket (the paddle) with the pointer or the arrow keys, each
croissant caught scores one point, and the game ends when a thirty-second
countdown runs out. This project models the game's rules from `game.js` as
pure Dafny functions over an immutable session record, and proves what they
guarantee.

Modules, one per concern of the per-frame simulation:

- `Util` — JavaScript's `Math.min`, `Math.max` and `Math.round`, plus the
  reference `Filter`, `Count` and `MapSeq` on sequences.
- `Difficulty` — the speed factor (one plus six percent per second), the
  paddle shrink fraction, the spawn interval and the cap on live croissants.
- `Geometry` — the paddle: the clamp `max(8, min(x, W - width - 8))`, the
  arrow-key nudges, pointer centring, the base width and the shrunken width,
  and the re-clamp on resize.
- `Croissants` — creating a croissant from five random draws, one frame of
  motion, the inclusive box catch test, the miss rule, and the pass that sorts
  every croissant into caught, missed or kept.
- `Sweep` — the update loop as the game writes it: reverse index order with
  in-place splicing. It is proved to compute exactly the functional pass,
  for any motion and any verdict, so in particular for a frame's.
- `Session` — the session `State`, `Init` and `Start` (the initial state
  followed by the first frame), plus `Frame`, `Tick`, `Step` (arrow key,
  pointer move, resize) and `Run` over a sequence of events.
- `SessionProps` — properties of frames and whole runs: score accounting,
  the live-count caps, the invariants every event keeps, the countdown
  ending the game exactly once, and frames commuting with ticks.

The platform is abstracted as follows:

- `Math.random` becomes a `Draw` of five values of subtype `Random01` (`[0, 1)`).
- Each `Date.now()` reading becomes an integer millisecond parameter. A frame
  reads the clock twice: `now` at the top of `update`, and `later` inside
  `difficultyFactor`.
- `Math.sin` in the wobble becomes a parameter `sin: real -> real`.
- Positions and speeds are Dafny `real`s. Canvas sizes are whole CSS pixels.

The frame loop and the one-second timer are two kinds of event on the shared
state. They are applied in any order.

Behaviour of `game.js` that the model keeps exactly as written:

- The miss test subtracts the full size from the centre: a croissant is
  missed when `y - size > H + 40` (game.js:157, `Croissants.MissUsesFullSize`).
- The width is `max(70, round(base * (1 - shrink)))` (game.js:125). It stays
  within the base width only when the base width is at least 70; on a canvas
  whose base width is below 70 the paddle is 70 wide (`Geometry.WidthAt`).
- The clamp `max(8, min(x, W - width - 8))` (game.js:72, 126) keeps
  `x <= W - width - 8` only when `W - width >= 16`; otherwise it pins the
  paddle at 8 (`Geometry.Clamp`).
- A frame adds the acceleration to `vy` before it moves the croissant
  (game.js:132-133). A croissant with `vy = 2` at factor 1 therefore falls
  2.01 pixels in that frame (`Croissants.AccelerationFirst`).
- The paddle literal (game.js:50-53) is evaluated before the canvas is first
  sized, so the paddle starts at base width 0, width 0 and x 20, and is then
  resized (game.js:64). Its width is only set by the first frame
  (`Session.Init`). That frame runs synchronously at start-up (game.js:220),
  before any timer, key, pointer or resize callback can fire, so sessions
  start from `Session.Start`, the initial state after its first frame.
- ArrowRight sets `x = min(W - width - 8, x + 20)` (game.js:90), with no
  lower bound. `Session.Step` and `Session.Run` use this handler. The
  session invariant `SessionProps.Healthy` therefore promises only
  `x >= min(8, W - width - 8)` on the left, with `x <= W - width - 8` on the
  right whenever that bound is at least 8. The corrected handler is used by
  `Session.StepClamped` and `Session.RunClamped` (see Findings).

## Model

| member | source | states |
|---|---|---|
| `Util.Round` | game.js:125 | `Math.round` gives the integer within half a unit below or strictly less than half above the argument |
| `Difficulty.ElapsedSeconds` | game.js:110 | whole seconds are the floor of milliseconds over 1000, and are non-negative for a non-negative duration |
| `Difficulty.Factor` | game.js:100-104 | the speed factor is at least 1 once the clock has not gone back, and equals 1 exactly at the start |
| `Difficulty.FactorMonotone` | game.js:100-104 | the speed factor never decreases as time passes |
| `Difficulty.Shrink` | game.js:124 | the shrink fraction is at most 0.45, in [0, 0.45] for factor at least 1, 0 at factor 1, and saturates at 0.45 from factor 4.75 |
| `Difficulty.ShrinkMonotone` | game.js:124 | a higher factor never shrinks the paddle less |
| `Difficulty.SpawnInterval` | game.js:113 | the interval is at least 300 ms, at most 1200 ms once elapsed is non-negative, 1200 ms at second 0 and 300 ms from second 30 |
| `Difficulty.SpawnIntervalMonotone` | game.js:113 | the interval never grows as the seconds go by |
| `Difficulty.SpawnCap` | game.js:116 | the cap is at most 8, at least 1 for non-negative time, 1 in the first six seconds and 8 from second 42 |
| `Difficulty.SpawnCapMonotone` | game.js:116 | the cap never falls as the seconds go by |
| `Difficulty.ShouldSpawn` | game.js:116 | the spawn gate: open when the live count is below the time-scaled cap and the interval has passed since the last spawn; `Session.MaybeSpawn` states that a croissant is pushed exactly when it is open, and `SessionProps.FrameRespectsTimeCap` that a frame keeps the count within the cap |
| `Geometry.Clamp` | game.js:72 | the clamped x is at least 8; it is at most `W - width - 8` when that bound is at least 8, otherwise exactly 8; an x already in range is unchanged |
| `Geometry.ClampIsNearest` | game.js:126 | on a non-empty range the clamp is the nearest point of the range to the input |
| `Geometry.ClampIdempotent` | game.js:59 | clamping twice is clamping once |
| `Geometry.Nudge` | game.js:85-92 | ArrowLeft lands on x - 20 when that is at least 8 and on exactly 8 otherwise; ArrowRight lands on x + 20 when that is at most `W - width - 8` and on exactly `W - width - 8` otherwise; neither changes the widths; other keys change nothing |
| `Geometry.RightNudgeLeavesMargin` | game.js:89-90 | on an 80-pixel canvas with a 70-pixel paddle pinned at 8, ArrowRight moves the paddle to 2, left of the margin |
| `Geometry.NudgeClamped` | game.js:85-92 | the corrected nudge keeps both arrows within the clamp range: never below 8, never above the right bound when that bound is at least 8 |
| `Geometry.NudgeClampedAgrees` | game.js:85-92 | whenever x is already in a non-empty range, the corrected nudge equals the game's nudge, and each arrow moves in its own direction |
| `Geometry.NudgeLeftRightReturns` | game.js:86-90 | away from both edges, ArrowLeft then ArrowRight restores the paddle, with the game's handler and with the corrected one |
| `Geometry.FollowPointer` | game.js:68-73 | the pointer puts the paddle's centre under the pointer whenever that position is in range; an x left of 8, or any x on a canvas too narrow for both margins, lands on 8; an x past `W - width - 8` lands on it; the widths are unchanged |
| `Geometry.BaseWidthFor` | game.js:57 | the base width is the largest integer not above 0.35 W, capped at 160 |
| `Geometry.WidthAt` | game.js:124-125 | the paddle width is at least 70, at most the base width when time runs forward and the base is at least 70, and equal to `max(70, base)` at the start |
| `Geometry.WidthAtLeastShrunkBase` | game.js:124-125 | the width never falls below 55% of the base width minus half a pixel |
| `Geometry.WidthShrinksOverTime` | game.js:124-125 | a later speed factor never gives a wider paddle |
| `Geometry.WidthGrowsWithBase` | game.js:124-125 | at any speed factor, a wider base never gives a narrower paddle |
| `Geometry.Resize` | game.js:56-60 | a resize recomputes the base width from the new canvas and keeps the current width; an in-range x stays, an x left of 8 or on a too-narrow canvas lands on 8, and an x past `W - width - 8` lands on it |
| `Croissants.Create` | game.js:37-46 | a new croissant has size in [28, 64), x within half a size of the room, y above the top edge by less than 160 beyond its size, vy in [2, 4) and wobble in [-1, 1) |
| `Croissants.CreateStartsAboveCanvas` | game.js:41-42 | on a canvas wider than the croissant it starts wholly inside horizontally and wholly above the top edge |
| `Croissants.Advance` | game.js:131-135 | a frame raises vy for a positive factor, strictly lowers the croissant when vy is positive and the factor is at least 1, and shifts x by at most 0.6 when the sine is bounded |
| `Croissants.AccelerationFirst` | game.js:132-133 | a croissant at vy 2 and factor 1 ends the frame at vy 2.01 and 2.01 pixels lower: the acceleration is applied before the move |
| `Croissants.IsCaught` | game.js:140-146 | the inclusive collision test; `Croissants.CaughtIffBoxesMeet` states it is closed-box intersection of the croissant's square and the paddle |
| `Croissants.IsMissed` | game.js:157 | the miss test; `Croissants.MissUsesFullSize` states it holds exactly when the centre is more than the full size beyond 40 pixels below the canvas |
| `Croissants.CaughtIffBoxesMeet` | game.js:137-146 | the catch test holds exactly when the croissant's square and the paddle rectangle share a point |
| `Croissants.MissedIsNeverCaught` | game.js:145-158 | a croissant past the miss line is never also caught, and lies wholly below the miss line |
| `Croissants.MissUsesFullSize` | game.js:156-158 | a croissant is missed exactly when its centre is more than its size beyond 40 pixels below the canvas |
| `Croissants.FateOf` | game.js:145-159 | caught exactly when the box test holds; missed exactly when not caught and past the line; kept otherwise |
| `Croissants.Pass` | game.js:129-160 | survivors, catches and misses add up to the input length: each croissant is removed at most once; a frame passes the motion `Mover` and the verdict `Judge` (catch test first, then the miss rule) |
| `Croissants.PassIsFilterAndCount` | game.js:129-160 | for any motion and verdict, the survivors are the moved croissants judged kept, in original order; the catch and miss tallies count the moved croissants judged caught and missed |
| `Croissants.PassSurvivorsUntouched` | game.js:145-159 | every survivor is one of the moved croissants and was neither caught nor missed |
| `Croissants.PassDropsFallen` | game.js:156-159 | a croissant already past the miss line, moving down, is removed without scoring whatever the paddle |
| `Sweep.RemoveAtShifts` | game.js:151 | splicing out index i keeps the elements before it and shifts the rest down by one |
| `Sweep.Visit` | game.js:130-159 | one iteration at index k - 1 moves the croissant in place and splices it out when caught or missed, extending the already-passed suffix by one |
| `Sweep.UpdateCroissants` | game.js:129-160 | the reverse-order splice loop leaves exactly the functional survivors in order, and counts exactly its catches and misses |
| `Session.PaddleLiteral` | game.js:49-55 | the paddle literal starts with both widths equal to the base width and x at least 20 |
| `Session.Init` | game.js:26-64 | a new session has score 0, 30 seconds, running, one live croissant, the base width of the canvas and x at least 8 |
| `Session.Start` | game.js:217-220 | after the synchronous first frame the session is running with 30 seconds, a non-negative score, at most two croissants, a paddle at least 70 wide with the canvas's base width, and x within the clamp range |
| `Session.MaybeSpawn` | game.js:115-119 | the list grows by exactly one croissant, appended at the end with `lastSpawn` set to now, exactly when the gate is open; otherwise nothing changes; the cap is respected |
| `Session.FramePaddle` | game.js:123-126 | a frame's paddle is at least 70 wide and within the base width when the base allows it; x stays where it is when in range for the new width, lands on 8 when left of it or when the canvas is too narrow, and lands on `W - width - 8` when past it |
| `Session.Frame` | game.js:106-161 | a frame does nothing once the game is over; it never changes the clock or the canvas; the score never falls; new points plus survivors never exceed the old count plus one; the count stays within 8; a paddle in range for the new width stays where the player put it |
| `Session.Tick` | game.js:222-232 | a tick does nothing once the game is over; otherwise it takes exactly one second off and ends the game exactly when no seconds are left; nothing else changes |
| `Session.Step` | game.js:65-92 | only ticks touch the countdown, and only frames touch the score and the croissants |
| `Session.StepClamped` | game.js:85-92 | the corrected session handles every non-key event as the game does; an arrow key only moves the paddle, keeping its widths, and leaves x at least 8 and within the right bound whenever that bound is at least 8; other keys change nothing |
| `Session.Run` | game.js:210-232 | frames, ticks and input events applied in any order; `SessionProps.RunCountdown`, `SessionProps.RunKeepsHealthy` and `SessionProps.GameOverFreezes` state what every run keeps |
| `SessionProps.FrameScoresCatches` | game.js:145-159 | a running frame adds exactly the number of caught croissants to the score, keeps exactly the uncaught unmissed ones in order, and shrinks the list by the caught plus the missed |
| `SessionProps.FrameRespectsTimeCap` | game.js:116-119 | with the frame clock running forward, a count within an earlier cap stays within this frame's time-scaled cap |
| `SessionProps.StartHealthy` | game.js:217-220 | a started session satisfies the session invariant, with x at least 8 |
| `SessionProps.StepKeepsHealthy` | game.js:65-161 | every event as the game handles it keeps the invariant: score non-negative, running exactly while seconds remain, at most 8 croissants, paddle at least 70 wide, x at least `min(8, W - width - 8)` and at most `W - width - 8` when that is at least 8, base width matching the canvas |
| `SessionProps.RunKeepsHealthy` | game.js:210-232 | any sequence of the game's events keeps the invariant |
| `SessionProps.SessionStaysHealthy` | game.js:210-232 | every state a started session reaches satisfies the invariant, including a paddle at least 70 wide and x within the two-sided clamp bounds |
| `SessionProps.StepClampedKeepsHealthy` | game.js:85-92 | with the corrected arrow keys every event also keeps x at least 8 |
| `SessionProps.RunClampedKeepsHealthy` | game.js:210-232 | with the corrected arrow keys any sequence of events keeps x at least 8 |
| `SessionProps.ClampedSessionStaysHealthy` | game.js:210-232 | with the corrected arrow keys every state a session reaches keeps x at least 8 |
| `SessionProps.ClampedAgreesOnWideCanvas` | game.js:85-92 | from any healthy state on a canvas at least 16 px wider than the paddle, the corrected session and the game handle every event identically |
| `SessionProps.GameArrowLeavesMargin` | game.js:89-90 | a session started on an 80-pixel canvas, then the game's ArrowRight, puts x at 2, breaking the margin; the corrected session keeps it at 8 |
| `SessionProps.ScoreNeverDecreases` | game.js:148 | no sequence of events lowers the score |
| `SessionProps.RunCountdown` | game.js:222-232 | the clock after any events is the start value less the ticks, floored at 0, and the game is on exactly while that is positive |
| `SessionProps.SessionCountdown` | game.js:222-232 | from a started session the game is on exactly while fewer than 30 ticks have arrived, and the clock shows 30 less the ticks, never below 0 |
| `SessionProps.GameEndsExactlyOnce` | game.js:226-228 | running turns off exactly at the thirtieth tick, with 0 seconds left, and never turns back on |
| `SessionProps.GameOverFreezes` | game.js:107 | after the game ends no event changes the score, the clock or the croissants |
| `SessionProps.FrameTickCommute` | game.js:210-232 | a frame and a tick give the same state in either order unless the tick ends the game |
| `SessionProps.NarrowCanvasNudge` | game.js:89-90 | every running frame on an 80-pixel canvas pins a 70-pixel paddle at 8; the game's ArrowRight then moves it to 2, the clamped nudge keeps it at 8 |

## Findings

| source | as written | input that shows it | evidently intended | confidence | as-written member | corrected member |
|---|---|---|---|---|---|---|
| game.js:89-90 | ArrowRight sets x to `min(W - width - 8, x + 20)`, clamping the right side only | canvas 80 px wide, paddle 70 px pinned at x = 8 by the frame clamp: ArrowRight sets x = 2 | like every other clamp in the game, the arrows keep the paddle at least 8 px from the left edge and never move it against the arrow | low (needs a canvas narrower than the paddle plus 16 px), not executed | `Geometry.Nudge` | `Geometry.NudgeClamped` |

The as-written behaviour is exhibited by `Geometry.RightNudgeLeavesMargin`.
`SessionProps.NarrowCanvasNudge` reaches it with an ordinary frame, and
`SessionProps.GameArrowLeavesMargin` reaches it from a started session.
`Session.Step` keeps the game's handler, so `SessionProps.Healthy` bounds x on
the left only by `min(8, W - width - 8)`. The corrected session `Session.StepClamped`
uses `Geometry.NudgeClamped`, and `SessionProps.ClampedSessionStaysHealthy`
proves that with it x stays at least 8. `Geometry.NudgeClampedAgrees` proves
that the correction changes nothing whenever the paddle is already inside a
non-empty range, and `SessionProps.ClampedAgreesOnWideCanvas` that from any
healthy state on a canvas at least 16 px wider than the paddle the two
sessions handle every event identically. The next frame re-clamps x
(game.js:126) before its catch test or its drawing, so in the game the wrong
x lasts only until that frame.

## Left out

- Canvas drawing (`draw`, `drawRoundedRect`, game.js:163-208): it only paints pixels and changes no state.
- DOM lookups, the device-pixel-ratio handling in `resizeCanvas`, and the score, timer and game-over text: these are browser I/O. A resize is modelled as new integer canvas dimensions.
- Pointer and touch subscription and the `getBoundingClientRect` offset: `Geometry.FollowPointer` takes a coordinate already relative to the canvas.
- `requestAnimationFrame`, `setInterval` and `clearInterval` scheduling: frames and ticks are events in an arbitrary sequence.
- `Math.random`, `Date.now` and `Math.sin`: these are parameters (see above). The model assumes nothing about the clock except where a lemma states it.
- IEEE floating point: all arithmetic is exact over `real` and `int`, so rounding artefacts of doubles are not modelled.
- The `spawnInterval` variable: it is recomputed at the top of every frame before it is read, so it is not part of the state.
- Restart (`location.reload`): a page reload is a fresh `Session.Start`.
- Math.max/Math.min on NaN: no value in the game can be NaN, so the NaN propagation is not modelled.

=== FILE: croissants.dfy ===
/** Falling croissants: creation from five random draws, the per-frame
    motion, the catch test against the paddle, the miss rule, and the pass
    that moves every croissant once and sorts it into caught, missed or
    kept. `Math.random` becomes the `Random01` draws and `Math.sin` the `sin`
    parameter. */
module Croissants {
  import opened Util
  import opened Geometry

  /** A value `Math.random` can return. */
  type Random01 = r: real | 0.0 <= r < 1.0

  /** The five random numbers one spawn consumes, in the order they are drawn. */
  datatype Draw = Draw(size: Random01, x: Random01, y: Random01, vy: Random01, wobble: Random01)

  /** `size` is the side of the square used for collisions; (x, y) its centre. */
  datatype Croissant = Croissant(size: int, x: real, y: real, vy: real, wobble: real)

  /** Smallest croissant size; sizes span 36 values from here. */
  const MinSize: int := 28
  const SizeSpan: int := 36
  /** Highest a croissant may start above the top edge, beyond its size. */
  const SpawnHeight: real := 160.0
  /** Past the canvas bottom by more than this, a croissant is missed. */
  const MissMargin: int := 40

  /** A new croissant for a canvas `w` wide. */
  function Create(w: int, d: Draw): (c: Croissant)
    ensures MinSize <= c.size < MinSize + SizeSpan
    ensures c.size as real / 2.0 <= c.x < c.size as real / 2.0 + MaxReal(1.0, (w - c.size) as real)
    ensures -SpawnHeight - c.size as real < c.y <= -(c.size as real)
    ensures 2.0 <= c.vy < 4.0
    ensures -1.0 <= c.wobble < 1.0
  {
    var size := MinSize + (d.size as real * SizeSpan as real).Floor;
    var room := MaxReal(1.0, (w - size) as real);
    assert d.x as real * room < room;
    Croissant(size,
              d.x as real * room + size as real / 2.0,
              -(d.y as real) * SpawnHeight - size as real,
              2.0 + d.vy as real * 2.0,
              d.wobble as real * 2.0 - 1.0)
  }

  /** On a canvas wider than the croissant, a new croissant lies wholly
      inside the canvas horizontally and wholly above its top edge. */
  lemma CreateStartsAboveCanvas(w: int, d: Draw)
    requires w > Create(w, d).size
    ensures Create(w, d).size as real / 2.0 <= Create(w, d).x < w as real - Create(w, d).size as real / 2.0
    ensures Create(w, d).y + Create(w, d).size as real / 2.0 < 0.0
  {
  }

  /** The argument `Math.sin` receives for the horizontal wobble. */
  function Phase(c: Croissant): real
  {
    (c.y + c.wobble * 10.0) * 0.02
  }

  /** One frame of motion at speed factor `f`: accelerate, fall, wobble. */
  function Advance(c: Croissant, f: real, sin: real -> real): (r: Croissant)
    ensures r.size == c.size && r.wobble == c.wobble
    ensures f > 0.0 ==> r.vy > c.vy
    ensures c.vy > 0.0 && f >= 1.0 ==> r.y > c.y
    ensures -1.0 <= sin(Phase(r)) <= 1.0 ==> -0.6 <= r.x - c.x <= 0.6
  {
    var vy := c.vy + 0.01 * f;
    var y := c.y + vy * f;
    var moved := c.(vy := vy, y := y);
    moved.(x := c.x + sin(Phase(moved)) * 0.6)
  }

  /** Acceleration comes before the move: a croissant falling at 2 pixels
      per frame at factor 1 moves down 2.01 pixels in that frame. */
  lemma AccelerationFirst(x: real, y: real, wobble: real, sin: real -> real)
    ensures Advance(Croissant(30, x, y, 2.0, wobble), 1.0, sin).y == y + 2.01
    ensures Advance(Croissant(30, x, y, 2.0, wobble), 1.0, sin).vy == 2.01
  {
  }

  /** The inclusive box test: the croissant's square, side `size` centred at
      (x, y), touches the paddle rectangle on both axes. */
  predicate IsCaught(c: Croissant, p: Paddle, h: int)
  {
    var half := c.size as real / 2.0;
    var top := PaddleTop(h) as real;
    && c.y + half >= top
    && c.y - half <= top + PaddleHeight as real
    && c.x + half >= p.x
    && c.x - half <= p.x + p.width as real
  }

  /** The miss rule, with the full size below the bottom edge plus margin. */
  predicate IsMissed(c: Croissant, h: int)
  {
    c.y - c.size as real > (h + MissMargin) as real
  }

  /** A croissant is missed exactly when its centre is more than its full
      size beyond the line 40 pixels below the canvas. A croissant with only
      part of its square past that line stays: a 30-pixel croissant centred
      at 656 on a 600-pixel canvas has half its size past the line at 640
      (656 - 15 > 640) but not its full size (656 - 30 <= 640), so it is not
      missed. */
  lemma MissUsesFullSize(c: Croissant, h: int)
    ensures !IsMissed(Croissant(30, 0.0, 656.0, 0.0, 0.0), 600)
    ensures IsMissed(c, h) <==> c.y > (h + MissMargin + c.size) as real
  {
  }

  /** Closed axis-aligned rectangle. */
  datatype Box = Box(left: real, right: real, top: real, bottom: real)

  predicate Contains(b: Box, px: real, py: real)
  {
    b.left <= px <= b.right && b.top <= py <= b.bottom
  }

  function CroissantBox(c: Croissant): Box
  {
    var half := c.size as real / 2.0;
    Box(c.x - half, c.x + half, c.y - half, c.y + half)
  }

  function PaddleBox(p: Paddle, h: int): Box
  {
    var top := PaddleTop(h) as real;
    Box(p.x, p.x + p.width as real, top, top + PaddleHeight as real)
  }

  /** A croissant is caught exactly when its square and the paddle share a
      point: the catch test is closed-box intersection. */
  lemma CaughtIffBoxesMeet(c: Croissant, p: Paddle, h: int)
    requires c.size >= 0 && p.width >= 0
    ensures IsCaught(c, p, h) <==>
              exists px: real, py: real :: Contains(CroissantBox(c), px, py) && Contains(PaddleBox(p, h), px, py)
  {
    var a := CroissantBox(c);
    var b := PaddleBox(p, h);
    if IsCaught(c, p, h) {
      var px := MaxReal(a.left, b.left);
      var py := MaxReal(a.top, b.top);
      assert Contains(a, px, py) && Contains(b, px, py);
    }
  }

  /** The miss line lies below the paddle, so a missed croissant can never
      also be caught: the order of the two checks does not matter. */
  lemma MissedIsNeverCaught(c: Croissant, p: Paddle, h: int)
    requires c.size >= 0
    requires IsMissed(c, h)
    ensures !IsCaught(c, p, h)
    ensures c.y - c.size as real / 2.0 > (h + MissMargin) as real
  {
  }

  /** What one frame does with one croissant. */
  datatype Fate = Caught | Missed | Kept

  /** The catch check runs first; only an uncaught croissant is tested for
      a miss. */
  function FateOf(c: Croissant, p: Paddle, h: int): (r: Fate)
    ensures r == Caught <==> IsCaught(c, p, h)
    ensures r == Missed <==> !IsCaught(c, p, h) && IsMissed(c, h)
    ensures r == Kept <==> !IsCaught(c, p, h) && !IsMissed(c, h)
  {
    if IsCaught(c, p, h) then Caught
    else if IsMissed(c, h) then Missed
    else Kept
  }

  /** One frame of motion at speed factor `f`, as a function of the croissant. */
  function Mover(f: real, sin: real -> real): Croissant -> Croissant
  {
    c => Advance(c, f, sin)
  }

  /** The frame's verdict on a moved croissant against paddle `p`. */
  function Judge(p: Paddle, h: int): Croissant -> Fate
  {
    c => FateOf(c, p, h)
  }

  /** Outcome of a whole pass: the croissants still falling, in order, and
      how many were caught and missed. */
  datatype PassResult = PassResult(survivors: seq<Croissant>, caught: nat, missed: nat)

  /** Every croissant moved once by `move` and sorted by `judge`. Each
      croissant gets exactly one fate, so the three parts add up to the
      input. A frame uses `Mover` and `Judge`. */
  function Pass(cs: seq<Croissant>, move: Croissant -> Croissant, judge: Croissant -> Fate): (r: PassResult)
    ensures |r.survivors| + r.caught + r.missed == |cs|
  {
    if |cs| == 0 then PassResult([], 0, 0)
    else
      var rest := Pass(cs[1..], move, judge);
      var a := move(cs[0]);
      match judge(a)
      case Caught => rest.(caught := rest.caught + 1)
      case Missed => rest.(missed := rest.missed + 1)
      case Kept => rest.(survivors := [a] + rest.survivors)
  }

  /** The pass against the reference definitions: the survivors are exactly
      the moved croissants judged Kept, in their original order; the catch
      and miss tallies count the moved croissants with those fates. */
  lemma {:induction false} PassIsFilterAndCount(cs: seq<Croissant>, move: Croissant -> Croissant, judge: Croissant -> Fate)
    ensures Pass(cs, move, judge).survivors == Filter(a => judge(a) == Kept, MapSeq(move, cs))
    ensures Pass(cs, move, judge).caught == Count(a => judge(a) == Caught, MapSeq(move, cs))
    ensures Pass(cs, move, judge).missed == Count(a => judge(a) == Missed, MapSeq(move, cs))
  {
    if |cs| > 0 {
      PassIsFilterAndCount(cs[1..], move, judge);
      assert MapSeq(move, cs)[1..] == MapSeq(move, cs[1..]);
    }
  }

  /** In a frame, every survivor is a moved croissant that was neither
      caught nor missed. */
  lemma PassSurvivorsUntouched(cs: seq<Croissant>, p: Paddle, h: int, f: real, sin: real -> real)
    ensures forall s :: s in Pass(cs, Mover(f, sin), Judge(p, h)).survivors ==>
              s in MapSeq(Mover(f, sin), cs) && !IsCaught(s, p, h) && !IsMissed(s, h)
  {
    PassIsFilterAndCount(cs, Mover(f, sin), Judge(p, h));
  }

  /** A croissant that has already fallen past the miss line with a
      non-negative speed is removed by the next frame, whatever the paddle. */
  lemma PassDropsFallen(c: Croissant, p: Paddle, h: int, f: real, sin: real -> real)
    requires c.size >= 0 && c.vy >= 0.0 && f >= 1.0
    requires IsMissed(c, h)
    ensures Pass([c], Mover(f, sin), Judge(p, h)) == PassResult([], 0, 1)
  {
    var a := Advance(c, f, sin);
    assert IsMissed(a, h);
    MissedIsNeverCaught(a, p, h);
  }
}

=== FILE: difficulty.dfy ===
/** Difficulty progression: the speed factor that grows with time since the
    session started, the paddle shrink fraction derived from it, and the
    spawn gate (minimum interval between spawns and the cap on live
    croissants). Clock readings are milliseconds passed in by the caller. */
module Difficulty {
  import opened Util

  /** Spawn interval at the start of a session, in milliseconds. */
  const StartInterval: int := 1200
  /** The interval never drops below this many milliseconds. */
  const MinSpawnInterval: int := 300
  /** Milliseconds the interval shrinks by per elapsed second. */
  const IntervalDecay: int := 30
  /** Hard cap on the number of live croissants. */
  const MaxCroissants: int := 8
  /** One more croissant is allowed every this many seconds. */
  const SecondsPerExtra: int := 6
  /** Largest fraction of the base width the paddle may lose. */
  const MaxShrink: real := 0.45

  /** Whole seconds in `ms` milliseconds, rounded down as `Math.floor` does. */
  function ElapsedSeconds(ms: int): (s: int)
    ensures s * 1000 <= ms < s * 1000 + 1000
    ensures ms >= 0 ==> s >= 0
  {
    ms / 1000
  }

  /** The speed multiplier `ms` milliseconds into the session: one plus
      six percent per (fractional) second. */
  function Factor(ms: int): (f: real)
    ensures ms >= 0 ==> f >= 1.0
    ensures f == 1.0 <==> ms == 0
  {
    1.0 + (ms as real / 1000.0) * 0.06
  }

  lemma FactorMonotone(a: int, b: int)
    requires a <= b
    ensures Factor(a) <= Factor(b)
  {
  }

  /** Fraction of the base width taken away at speed factor `f`. */
  function Shrink(f: real): (r: real)
    ensures r <= MaxShrink
    ensures f >= 1.0 ==> 0.0 <= r
    ensures f == 1.0 ==> r == 0.0
    ensures f >= 4.75 ==> r == MaxShrink
  {
    MinReal(MaxShrink, (f - 1.0) * 0.12)
  }

  lemma ShrinkMonotone(f: real, g: real)
    requires f <= g
    ensures Shrink(f) <= Shrink(g)
  {
  }

  /** Milliseconds that must pass between spawns, `e` whole seconds in. */
  function SpawnInterval(e: int): (r: int)
    ensures MinSpawnInterval <= r
    ensures e >= 0 ==> r <= StartInterval
    ensures e == 0 ==> r == StartInterval
    ensures e >= 30 ==> r == MinSpawnInterval
  {
    Max(MinSpawnInterval, StartInterval - e * IntervalDecay)
  }

  /** Later in the session the interval is never longer. */
  lemma SpawnIntervalMonotone(e1: int, e2: int)
    requires e1 <= e2
    ensures SpawnInterval(e2) <= SpawnInterval(e1)
  {
  }

  /** How many croissants may be live `e` whole seconds in. */
  function SpawnCap(e: int): (r: int)
    ensures r <= MaxCroissants
    ensures e >= 0 ==> r >= 1
    ensures 0 <= e < SecondsPerExtra ==> r == 1
    ensures e >= 42 ==> r == MaxCroissants
  {
    Min(MaxCroissants, 1 + e / SecondsPerExtra)
  }

  /** Later in the session the cap is never lower. */
  lemma SpawnCapMonotone(e1: int, e2: int)
    requires e1 <= e2
    ensures SpawnCap(e1) <= SpawnCap(e2)
  {
    assert e1 / SecondsPerExtra <= e2 / SecondsPerExtra;
  }

  /** The spawn gate: enough time since the last spawn, strictly more than
      the interval, and fewer live croissants than the cap. */
  predicate ShouldSpawn(live: int, now: int, lastSpawn: int, e: int)
  {
    now - lastSpawn > SpawnInterval(e) && live < SpawnCap(e)
  }
}

=== FILE: geometry.dfy ===
/** The catcher (paddle): its horizontal clamp, the arrow-key nudges, pointer
    centring, the width it shrinks to as difficulty rises, and the re-clamp on
    a canvas resize. Canvas sizes are whole CSS pixels; the paddle's x is a
    real, since pointer centring halves the width. */
module Geometry {
  import opened Util
  import opened Difficulty

  /** Gap kept between the paddle and either canvas edge. */
  const Margin: real := 8.0
  /** Distance one arrow-key press moves the paddle. */
  const KeyStep: real := 20.0
  /** The difficulty shrink never leaves the paddle narrower than this. */
  const MinWidth: int := 70
  /** The base width never exceeds this. */
  const MaxBaseWidth: int := 160
  /** Paddle height in pixels. */
  const PaddleHeight: int := 22
  /** The paddle's top edge sits this far above the canvas bottom. */
  const TopOffset: int := 44

  datatype Paddle = Paddle(baseWidth: int, width: int, x: real)

  datatype Key = ArrowLeft | ArrowRight | OtherKey

  /** Right end of the range the clamp aims for: the margin in from the
      right edge, for a paddle `width` wide on a canvas `w` wide. */
  function RightLimit(w: int, width: int): real
  {
    w as real - width as real - Margin
  }

  /** The paddle's top edge on a canvas `h` high. */
  function PaddleTop(h: int): int
  {
    h - TopOffset
  }

  /** `max(8, min(x, w - width - 8))`: the left bound always wins, so the
      paddle stays clear of the left margin even when the canvas is too
      narrow to honour the right one. */
  function Clamp(x: real, w: int, width: int): (r: real)
    ensures r >= Margin
    ensures Margin <= RightLimit(w, width) ==> r <= RightLimit(w, width)
    ensures RightLimit(w, width) < Margin ==> r == Margin
    ensures Margin <= x <= RightLimit(w, width) ==> r == x
    ensures x < Margin ==> r == Margin
    ensures Margin <= RightLimit(w, width) < x ==> r == RightLimit(w, width)
  {
    MaxReal(Margin, MinReal(x, RightLimit(w, width)))
  }

  /** When the allowed range is non-empty the clamp is the projection onto
      it: no point of the range is closer to `x`. */
  lemma ClampIsNearest(x: real, w: int, width: int, y: real)
    requires Margin <= y <= RightLimit(w, width)
    ensures Margin <= Clamp(x, w, width) <= RightLimit(w, width)
    ensures x <= Clamp(x, w, width) ==> Clamp(x, w, width) - x <= y - x || y <= x
    ensures Clamp(x, w, width) <= x ==> x - Clamp(x, w, width) <= x - y || x <= y
  {
  }

  lemma ClampIdempotent(x: real, w: int, width: int)
    ensures Clamp(Clamp(x, w, width), w, width) == Clamp(x, w, width)
  {
  }

  /** The arrow-key handler as the game wires it: each arrow clamps one
      side only. */
  function Nudge(p: Paddle, w: int, k: Key): (r: Paddle)
    ensures r.baseWidth == p.baseWidth && r.width == p.width
    ensures k == OtherKey ==> r == p
    ensures k == ArrowLeft ==> r.x >= Margin && (p.x >= Margin ==> r.x <= p.x)
    ensures k == ArrowLeft && p.x - KeyStep >= Margin ==> r.x == p.x - KeyStep
    ensures k == ArrowLeft && p.x - KeyStep < Margin ==> r.x == Margin
    ensures k == ArrowRight ==> r.x <= RightLimit(w, p.width) && r.x <= p.x + KeyStep
    ensures k == ArrowRight && p.x + KeyStep <= RightLimit(w, p.width) ==> r.x == p.x + KeyStep
    ensures k == ArrowRight && p.x + KeyStep > RightLimit(w, p.width) ==> r.x == RightLimit(w, p.width)
  {
    match k
    case ArrowLeft => p.(x := MaxReal(Margin, p.x - KeyStep))
    case ArrowRight => p.(x := MinReal(RightLimit(w, p.width), p.x + KeyStep))
    case OtherKey => p
  }

  /** On a canvas narrower than the paddle plus both margins the clamp pins
      the paddle at the left margin, and ArrowRight then moves it LEFT and
      past that margin: on an 80-pixel canvas with a 70-pixel paddle at 8,
      ArrowRight puts it at 2. */
  lemma RightNudgeLeavesMargin()
    ensures Clamp(8.0, 80, 70) == 8.0
    ensures Nudge(Paddle(28, 70, 8.0), 80, ArrowRight).x == 2.0
    ensures Nudge(Paddle(28, 70, 8.0), 80, ArrowRight).x < Margin
  {
  }

  /** The arrow-key handler with both arrows going through the full clamp,
      so neither arrow can move the paddle past the left margin or against
      the arrow's direction. */
  function NudgeClamped(p: Paddle, w: int, k: Key): (r: Paddle)
    ensures r.baseWidth == p.baseWidth && r.width == p.width
    ensures k == OtherKey ==> r == p
    ensures k != OtherKey ==> r.x >= Margin
    ensures k != OtherKey && Margin <= RightLimit(w, p.width) ==> r.x <= RightLimit(w, p.width)
  {
    match k
    case ArrowLeft => p.(x := Clamp(p.x - KeyStep, w, p.width))
    case ArrowRight => p.(x := Clamp(p.x + KeyStep, w, p.width))
    case OtherKey => p
  }

  /** Whenever the paddle already sits in a non-empty allowed range (the
      situation every clamp of the game leaves behind on a wide enough
      canvas) the clamped nudge is exactly the game's nudge, and an arrow
      never moves the paddle against its direction. */
  lemma NudgeClampedAgrees(p: Paddle, w: int, k: Key)
    requires Margin <= p.x <= RightLimit(w, p.width)
    ensures NudgeClamped(p, w, k) == Nudge(p, w, k)
    ensures k == ArrowLeft ==> NudgeClamped(p, w, k).x <= p.x
    ensures k == ArrowRight ==> NudgeClamped(p, w, k).x >= p.x
  {
  }

  /** Away from both edges, left then right brings the paddle back, with
      the game's handler and with the corrected one alike. */
  lemma NudgeLeftRightReturns(p: Paddle, w: int)
    requires Margin + KeyStep <= p.x <= RightLimit(w, p.width)
    ensures Nudge(Nudge(p, w, ArrowLeft), w, ArrowRight) == p
    ensures NudgeClamped(NudgeClamped(p, w, ArrowLeft), w, ArrowRight) == p
  {
  }

  /** Pointer input: centre the paddle under canvas coordinate `cx`, then
      clamp. */
  function FollowPointer(p: Paddle, w: int, cx: real): (r: Paddle)
    ensures r.baseWidth == p.baseWidth && r.width == p.width
    ensures r.x >= Margin
    ensures Margin <= RightLimit(w, p.width) ==> r.x <= RightLimit(w, p.width)
    ensures Margin <= cx - p.width as real / 2.0 <= RightLimit(w, p.width) ==>
              r.x + p.width as real / 2.0 == cx
    ensures cx - p.width as real / 2.0 < Margin || RightLimit(w, p.width) < Margin ==> r.x == Margin
    ensures Margin <= RightLimit(w, p.width) < cx - p.width as real / 2.0 ==> r.x == RightLimit(w, p.width)
  {
    p.(x := Clamp(cx - p.width as real / 2.0, w, p.width))
  }

  /** `min(160, floor(0.35 * w))`: the unshrunk width for a canvas `w` wide. */
  function BaseWidthFor(w: int): (r: int)
    ensures r <= MaxBaseWidth
    ensures r as real <= w as real * 0.35
    ensures r == MaxBaseWidth || w as real * 0.35 < r as real + 1.0
    ensures w >= 0 ==> r >= 0
  {
    Min(MaxBaseWidth, (w as real * 0.35).Floor)
  }

  /** The paddle width at speed factor `f`: the base width less the shrink
      fraction, rounded, and never below the minimum. */
  function WidthAt(baseWidth: int, f: real): (r: int)
    ensures r >= MinWidth
    ensures f >= 1.0 && baseWidth >= MinWidth ==> r <= baseWidth
    ensures f == 1.0 ==> r == Max(MinWidth, baseWidth)
  {
    Max(MinWidth, Round(baseWidth as real * (1.0 - Shrink(f))))
  }

  /** The width never goes below the rounded share of the base width that
      the largest shrink leaves. */
  lemma WidthAtLeastShrunkBase(baseWidth: int, f: real)
    requires baseWidth >= 0
    ensures WidthAt(baseWidth, f) as real >= baseWidth as real * (1.0 - MaxShrink) - 0.5
  {
    var a := baseWidth as real;
    var k := 1.0 - Shrink(f);
    MulMonotone(a, 1.0 - MaxShrink, k);
    var r := Round(a * k);
    assert r as real > a * k - 0.5;
    assert WidthAt(baseWidth, f) >= r;
    calc {
      WidthAt(baseWidth, f) as real;
    >=
      r as real;
    >
      a * k - 0.5;
    >=  // MulMonotone
      a * (1.0 - MaxShrink) - 0.5;
    }
  }

  /** A later speed factor never gives a wider paddle. */
  lemma WidthShrinksOverTime(b: int, f: real, g: real)
    requires 0 <= b
    requires f <= g
    ensures WidthAt(b, g) <= WidthAt(b, f)
  {
    ShrinkMonotone(f, g);
    MulMonotone(b as real, 1.0 - Shrink(g), 1.0 - Shrink(f));
    RoundMonotone(b as real * (1.0 - Shrink(g)), b as real * (1.0 - Shrink(f)));
  }

  /** At any factor a wider base never gives a narrower paddle, since the
      shrink never exceeds 0.45. */
  lemma WidthGrowsWithBase(b1: int, b2: int, f: real)
    requires b1 <= b2
    ensures WidthAt(b1, f) <= WidthAt(b2, f)
  {
    var k := 1.0 - Shrink(f);
    MulMonotone(k, b1 as real, b2 as real);
    assert b1 as real * k <= b2 as real * k;
    RoundMonotone(b1 as real * k, b2 as real * k);
  }

  /** `updateSize` on a resize to a canvas `w` wide: a new base width and the
      old x re-clamped; the current width waits for the next frame. */
  function Resize(p: Paddle, w: int): (r: Paddle)
    ensures r.width == p.width
    ensures r.baseWidth == BaseWidthFor(w)
    ensures r.x >= Margin
    ensures Margin <= RightLimit(w, p.width) ==> r.x <= RightLimit(w, p.width)
    ensures Margin <= p.x <= RightLimit(w, p.width) ==> r.x == p.x
    ensures p.x < Margin || RightLimit(w, p.width) < Margin ==> r.x == Margin
    ensures Margin <= RightLimit(w, p.width) < p.x ==> r.x == RightLimit(w, p.width)
  {
    Paddle(BaseWidthFor(w), p.width, Clamp(p.x, w, p.width))
  }
}

=== FILE: session.dfy ===
/** One game session as an immutable state record and the events that change
    it: the per-frame update, the one-second countdown tick, arrow keys,
    pointer moves and canvas resizes. Clock readings, random draws and the
    sine used for the wobble arrive inside the events. */
module Session {
  import opened Util
  import opened Difficulty
  import opened Geometry
  import opened Croissants

  /** Seconds on the clock when a session starts. */
  const StartSeconds: int := 30

  /** The session: canvas size in CSS pixels, score, countdown, whether the
      game is still on, the two clock marks in milliseconds, the paddle and
      the live croissants in spawn order. */
  datatype State = State(
    width: int,
    height: int,
    score: int,
    timeLeft: int,
    running: bool,
    startTime: int,
    lastSpawn: int,
    paddle: Paddle,
    croissants: seq<Croissant>)

  /** What one animation frame reads from the outside world: the clock at
      the start of the frame, the clock when the speed factor is computed,
      the random draws a spawn would use, and the sine function. */
  datatype FrameInput = FrameInput(now: int, later: int, draw: Draw, sin: real -> real)

  datatype Event =
    | FrameEvent(input: FrameInput)
    | TickEvent
    | KeyEvent(key: Key)
    | PointerEvent(cx: real)
    | ResizeEvent(w: int, h: int)

  /** The paddle as its literal builds it on a canvas `w` wide. */
  function PaddleLiteral(w: int): (p: Paddle)
    ensures p.baseWidth == p.width == BaseWidthFor(w)
    ensures p.x >= 20.0
  {
    var b := BaseWidthFor(w);
    Paddle(b, b, MaxReal(20.0, (w - b) as real / 2.0))
  }

  /** A fresh session at clock `start` on a `w` by `h` canvas. The paddle
      literal is evaluated before the canvas is first sized, so it is built
      for a zero-wide canvas and then resized; its width stays 0 until the
      first frame sets it. One croissant is live from the start. */
  function Init(w: int, h: int, start: int, d: Draw): (s: State)
    ensures s.score == 0 && s.timeLeft == StartSeconds && s.running
    ensures s.startTime == start && s.lastSpawn == 0
    ensures |s.croissants| == 1
    ensures s.paddle.baseWidth == BaseWidthFor(w) && s.paddle.x >= Margin
    ensures s.width == w && s.height == h
  {
    State(w, h, 0, StartSeconds, true, start, 0, Resize(PaddleLiteral(0), w), [Create(w, d)])
  }

  /** A session as the page starts it: the initial state followed at once
      by the first frame, which runs before any timer, key, pointer or
      resize callback can. From here on the paddle is sized. */
  function Start(w: int, h: int, start: int, d: Draw, first: FrameInput): (s: State)
    ensures s.running && s.timeLeft == StartSeconds && s.score >= 0
    ensures s.width == w && s.height == h && s.startTime == start
    ensures s.paddle.baseWidth == BaseWidthFor(w)
    ensures s.paddle.width >= MinWidth && s.paddle.x >= Margin
    ensures Margin <= RightLimit(w, s.paddle.width) ==> s.paddle.x <= RightLimit(w, s.paddle.width)
    ensures |s.croissants| <= 2
  {
    Frame(Init(w, h, start, d), first)
  }

  /** The spawn step of a frame `e` whole seconds in: append one new
      croissant and record the spawn time when the gate is open, otherwise
      change nothing. */
  function MaybeSpawn(s: State, now: int, e: int, d: Draw): (r: State)
    ensures |r.croissants| == |s.croissants| + 1 <==> ShouldSpawn(|s.croissants|, now, s.lastSpawn, e)
    ensures |r.croissants| == |s.croissants| ==> r == s
    ensures |r.croissants| == |s.croissants| || |r.croissants| == |s.croissants| + 1
    ensures r.croissants[..|s.croissants|] == s.croissants
    ensures |r.croissants| > |s.croissants| ==>
              r.croissants[|s.croissants|] == Create(s.width, d) && r.lastSpawn == now &&
              r == s.(croissants := r.croissants, lastSpawn := now)
    ensures |r.croissants| <= Max(|s.croissants|, SpawnCap(e))
  {
    if ShouldSpawn(|s.croissants|, now, s.lastSpawn, e) then
      s.(croissants := s.croissants + [Create(s.width, d)], lastSpawn := now)
    else s
  }

  /** The paddle of a frame at speed factor `f`: width from the base width
      and the factor, x re-clamped to it. */
  function FramePaddle(p: Paddle, w: int, f: real): (r: Paddle)
    ensures r.baseWidth == p.baseWidth
    ensures r.width >= MinWidth
    ensures f >= 1.0 && p.baseWidth >= MinWidth ==> r.width <= p.baseWidth
    ensures r.x >= Margin
    ensures Margin <= RightLimit(w, r.width) ==> r.x <= RightLimit(w, r.width)
    ensures Margin <= p.x <= RightLimit(w, r.width) ==> r.x == p.x
    ensures p.x < Margin || RightLimit(w, r.width) < Margin ==> r.x == Margin
    ensures Margin <= RightLimit(w, r.width) < p.x ==> r.x == RightLimit(w, r.width)
  {
    var width := WidthAt(p.baseWidth, f);
    Paddle(p.baseWidth, width, Clamp(p.x, w, width))
  }

  /** One animation frame. Nothing happens once the game is over; otherwise
      maybe spawn, resize and re-clamp the paddle, then move every croissant
      and remove the caught (one point each) and the missed. */
  function Frame(s: State, input: FrameInput): (r: State)
    ensures !s.running ==> r == s
    ensures r.running == s.running && r.timeLeft == s.timeLeft
    ensures r.width == s.width && r.height == s.height && r.startTime == s.startTime
    ensures r.paddle.baseWidth == s.paddle.baseWidth
    ensures r.score >= s.score
    ensures |r.croissants| + (r.score - s.score) <= |s.croissants| + 1
    ensures s.running ==> r.paddle.width >= MinWidth && r.paddle.x >= Margin
    ensures |s.croissants| <= MaxCroissants ==> |r.croissants| <= MaxCroissants
    ensures s.running && Margin <= s.paddle.x <= RightLimit(s.width, r.paddle.width) ==> r.paddle.x == s.paddle.x
  {
    if !s.running then s
    else
      var e := ElapsedSeconds(input.now - s.startTime);
      var spawned := MaybeSpawn(s, input.now, e, input.draw);
      var f := Factor(input.later - s.startTime);
      var paddle := FramePaddle(s.paddle, s.width, f);
      var pass := Pass(spawned.croissants, Mover(f, input.sin), Judge(paddle, s.height));
      spawned.(paddle := paddle, croissants := pass.survivors, score := s.score + pass.caught)
  }

  /** The one-second timer. Nothing happens once the game is over;
      otherwise one second comes off, and the game ends when none are left. */
  function Tick(s: State): (r: State)
    ensures !s.running ==> r == s
    ensures s.running ==> r.timeLeft == s.timeLeft - 1
    ensures s.running ==> (r.running <==> r.timeLeft > 0)
    ensures r == s.(timeLeft := r.timeLeft, running := r.running)
  {
    if !s.running then s
    else
      var t := s.timeLeft - 1;
      s.(timeLeft := t, running := t > 0)
  }

  /** One event as the game handles it. Keys, pointer moves and resizes act
      on the paddle whether or not the game is still on; arrow keys use the
      game's one-sided bounds (Geometry.Nudge). */
  function Step(s: State, ev: Event): (r: State)
    ensures !ev.TickEvent? ==> r.timeLeft == s.timeLeft && r.running == s.running
    ensures !ev.FrameEvent? ==> r.score == s.score && r.croissants == s.croissants
    ensures ev.TickEvent? ==> r == Tick(s)
  {
    match ev
    case FrameEvent(input) => Frame(s, input)
    case TickEvent => Tick(s)
    case KeyEvent(k) => s.(paddle := Nudge(s.paddle, s.width, k))
    case PointerEvent(cx) => s.(paddle := FollowPointer(s.paddle, s.width, cx))
    case ResizeEvent(w, h) => s.(width := w, height := h, paddle := Resize(s.paddle, w))
  }

  /** The events applied in order. */
  function Run(s: State, evs: seq<Event>): State
    decreases |evs|
  {
    if |evs| == 0 then s else Run(Step(s, evs[0]), evs[1..])
  }

  /** The session with the corrected arrow keys (Geometry.NudgeClamped):
      every other event is handled as in `Step`. */
  function StepClamped(s: State, ev: Event): (r: State)
    ensures !ev.KeyEvent? ==> r == Step(s, ev)
    ensures ev.KeyEvent? ==> r == s.(paddle := r.paddle) && r.paddle.width == s.paddle.width &&
                             r.paddle.baseWidth == s.paddle.baseWidth
    ensures ev.KeyEvent? && ev.key != OtherKey ==>
              r.paddle.x >= Margin &&
              (Margin <= RightLimit(s.width, s.paddle.width) ==> r.paddle.x <= RightLimit(s.width, s.paddle.width))
    ensures ev.KeyEvent? && ev.key == OtherKey ==> r == s
  {
    match ev
    case KeyEvent(k) => s.(paddle := NudgeClamped(s.paddle, s.width, k))
    case _ => Step(s, ev)
  }

  /** The events applied in order with the corrected arrow keys. */
  function RunClamped(s: State, evs: seq<Event>): State
    decreases |evs|
  {
    if |evs| == 0 then s else RunClamped(StepClamped(s, evs[0]), evs[1..])
  }

  /** How many countdown ticks `evs` holds. */
  function Ticks(evs: seq<Event>): (n: nat)
    ensures n <= |evs|
  {
    Count((ev: Event) => ev.TickEvent?, evs)
  }
}

=== FILE: session_props.dfy ===
/** Properties of whole sessions: what one frame does to the score and the
    croissant list, the invariants every event keeps, the countdown ending
    the game exactly once, and how frames and ticks interleave. */
module SessionProps {
  import opened Util
  import opened Difficulty
  import opened Geometry
  import opened Croissants
  import opened Session

  lemma {:induction false} CountAppend<T>(p: T -> bool, a: seq<T>, b: seq<T>)
    ensures Count(p, a + b) == Count(p, a) + Count(p, b)
  {
    if |a| > 0 {
      assert (a + b)[1..] == a[1..] + b;
      CountAppend(p, a[1..], b);
    } else {
      assert a + b == b;
    }
  }

  /** One running frame in terms of the reference definitions: the score
      goes up by exactly the number of croissants the catch test accepts
      after moving, the survivors are the moved croissants that were neither
      caught nor missed, in their order, and the list shrinks by the caught
      and the missed together. */
  lemma FrameScoresCatches(s: State, input: FrameInput)
    requires s.running
    ensures var e := ElapsedSeconds(input.now - s.startTime);
            var spawned := MaybeSpawn(s, input.now, e, input.draw).croissants;
            var f := Factor(input.later - s.startTime);
            var r := Frame(s, input);
            var moved := MapSeq(Mover(f, input.sin), spawned);
            var judge := Judge(r.paddle, s.height);
            var caught := Count(a => judge(a) == Caught, moved);
            var missed := Count(a => judge(a) == Missed, moved);
            && r.score == s.score + caught
            && r.croissants == Filter(a => judge(a) == Kept, moved)
            && |r.croissants| == |spawned| - caught - missed
  {
    var e := ElapsedSeconds(input.now - s.startTime);
    var spawned := MaybeSpawn(s, input.now, e, input.draw).croissants;
    var f := Factor(input.later - s.startTime);
    var paddle := FramePaddle(s.paddle, s.width, f);
    var pass := Pass(spawned, Mover(f, input.sin), Judge(paddle, s.height));
    var r := Frame(s, input);
    assert r.paddle == paddle;
    assert r.score == s.score + pass.caught && r.croissants == pass.survivors;
    PassIsFilterAndCount(spawned, Mover(f, input.sin), Judge(paddle, s.height));
  }

  /** With the frame clock running forward, a frame never takes the live
      count past the time-scaled cap: if the count was within the cap of an
      earlier second, it is within the cap of this frame's second. */
  lemma FrameRespectsTimeCap(s: State, input: FrameInput, e0: int)
    requires s.running
    requires |s.croissants| <= SpawnCap(e0)
    requires e0 <= ElapsedSeconds(input.now - s.startTime)
    ensures |Frame(s, input).croissants| <= SpawnCap(ElapsedSeconds(input.now - s.startTime))
  {
    var e := ElapsedSeconds(input.now - s.startTime);
    SpawnCapMonotone(e0, e);
    var f := Factor(input.later - s.startTime);
    var spawned := MaybeSpawn(s, input.now, e, input.draw);
    var pass := Pass(spawned.croissants, Mover(f, input.sin), Judge(FramePaddle(s.paddle, s.width, f), s.height));
    assert |Frame(s, input).croissants| == |pass.survivors| <= |spawned.croissants|;
  }

  /** What every state reachable from a started session satisfies: a
      non-negative score, a countdown that is on exactly while seconds
      remain, at most eight live croissants, a base width that matches the
      canvas, and a paddle at least 70 wide. Its x is never right of
      the right bound when that bound is at least the margin, and never
      left of the margin or, on a canvas too narrow for both margins, of
      the right bound: the game's ArrowRight can reach that right bound,
      which then lies left of the margin. */
  ghost predicate Healthy(s: State)
  {
    && s.score >= 0
    && 0 <= s.timeLeft <= StartSeconds
    && (s.running <==> s.timeLeft > 0)
    && |s.croissants| <= MaxCroissants
    && s.paddle.width >= MinWidth
    && s.paddle.x >= MinReal(Margin, RightLimit(s.width, s.paddle.width))
    && (Margin <= RightLimit(s.width, s.paddle.width) ==> s.paddle.x <= RightLimit(s.width, s.paddle.width))
    && s.paddle.baseWidth == BaseWidthFor(s.width)
  }

  /** With the corrected arrow keys the paddle is never left of the margin. */
  ghost predicate ClampedHealthy(s: State)
  {
    Healthy(s) && s.paddle.x >= Margin
  }

  /** A started session, its first frame done, satisfies the invariant with
      the paddle at least 8 pixels from the left edge. */
  lemma StartHealthy(w: int, h: int, start: int, d: Draw, first: FrameInput)
    ensures ClampedHealthy(Start(w, h, start, d, first))
  {
  }

  lemma StepKeepsHealthy(s: State, ev: Event)
    requires Healthy(s)
    ensures Healthy(Step(s, ev))
  {
  }

  lemma {:induction false} RunKeepsHealthy(s: State, evs: seq<Event>)
    requires Healthy(s)
    ensures Healthy(Run(s, evs))
    decreases |evs|
  {
    if |evs| > 0 {
      StepKeepsHealthy(s, evs[0]);
      RunKeepsHealthy(Step(s, evs[0]), evs[1..]);
    }
  }

  /** Every state a session reaches is healthy, whatever the events. */
  lemma SessionStaysHealthy(w: int, h: int, start: int, d: Draw, first: FrameInput, evs: seq<Event>)
    ensures Healthy(Run(Start(w, h, start, d, first), evs))
  {
    StartHealthy(w, h, start, d, first);
    RunKeepsHealthy(Start(w, h, start, d, first), evs);
  }

  lemma StepClampedKeepsHealthy(s: State, ev: Event)
    requires ClampedHealthy(s)
    ensures ClampedHealthy(StepClamped(s, ev))
  {
  }

  lemma {:induction false} RunClampedKeepsHealthy(s: State, evs: seq<Event>)
    requires ClampedHealthy(s)
    ensures ClampedHealthy(RunClamped(s, evs))
    decreases |evs|
  {
    if |evs| > 0 {
      StepClampedKeepsHealthy(s, evs[0]);
      RunClampedKeepsHealthy(StepClamped(s, evs[0]), evs[1..]);
    }
  }

  /** With the corrected arrow keys every reachable state keeps the paddle
      at least 8 pixels from the left edge. */
  lemma ClampedSessionStaysHealthy(w: int, h: int, start: int, d: Draw, first: FrameInput, evs: seq<Event>)
    ensures ClampedHealthy(RunClamped(Start(w, h, start, d, first), evs))
  {
    StartHealthy(w, h, start, d, first);
    RunClampedKeepsHealthy(Start(w, h, start, d, first), evs);
  }

  /** On a canvas with room for the paddle and both margins, the corrected
      session and the game take every event from a healthy state to the same
      state: the correction only matters on narrower canvases. */
  lemma ClampedAgreesOnWideCanvas(s: State, ev: Event)
    requires Healthy(s)
    requires Margin <= RightLimit(s.width, s.paddle.width)
    ensures StepClamped(s, ev) == Step(s, ev)
  {
    if ev.KeyEvent? {
      NudgeClampedAgrees(s.paddle, s.width, ev.key);
    }
  }

  /** The margin is not kept by the game itself: a session started on an
      80-pixel canvas, then ArrowRight, leaves the paddle at 2; the corrected
      session keeps it at 8. */
  lemma GameArrowLeavesMargin(h: int, start: int, d: Draw, first: FrameInput)
    requires first.later >= start
    ensures Run(Start(80, h, start, d, first), [KeyEvent(ArrowRight)]).paddle.x == 2.0
    ensures RunClamped(Start(80, h, start, d, first), [KeyEvent(ArrowRight)]).paddle.x == 8.0
    ensures !ClampedHealthy(Run(Start(80, h, start, d, first), [KeyEvent(ArrowRight)]))
  {
    NarrowCanvasNudge(Init(80, h, start, d), first);
  }

  /** The score never goes down. */
  lemma {:induction false} ScoreNeverDecreases(s: State, evs: seq<Event>)
    ensures Run(s, evs).score >= s.score
    decreases |evs|
  {
    if |evs| > 0 {
      ScoreNeverDecreases(Step(s, evs[0]), evs[1..]);
    }
  }

  /** The countdown depends only on how many ticks arrive: frames, keys,
      pointer moves and resizes never touch it, each tick while the game is
      on takes one second, and ticks after the end change nothing. */
  lemma {:induction false} RunCountdown(s: State, evs: seq<Event>)
    requires s.timeLeft >= 0 && (s.running <==> s.timeLeft > 0)
    ensures Run(s, evs).timeLeft == Max(0, s.timeLeft - Ticks(evs))
    ensures Run(s, evs).running <==> s.timeLeft - Ticks(evs) > 0
    decreases |evs|
  {
    if |evs| > 0 {
      var t := Step(s, evs[0]);
      RunCountdown(t, evs[1..]);
      assert Ticks(evs) == (if evs[0].TickEvent? then 1 else 0) + Ticks(evs[1..]);
    }
  }

  /** From a fresh session the game is on exactly while fewer than thirty
      ticks have arrived, and the clock shows thirty less the ticks, never
      below zero. */
  lemma SessionCountdown(w: int, h: int, start: int, d: Draw, first: FrameInput, evs: seq<Event>)
    ensures Run(Start(w, h, start, d, first), evs).running <==> Ticks(evs) < StartSeconds
    ensures Run(Start(w, h, start, d, first), evs).timeLeft == Max(0, StartSeconds - Ticks(evs))
  {
    RunCountdown(Start(w, h, start, d, first), evs);
  }

  /** The game ends exactly once: the event that turns `running` off is the
      thirtieth tick, it leaves zero seconds on the clock, and once off the
      game never comes back on. */
  lemma GameEndsExactlyOnce(w: int, h: int, start: int, d: Draw, first: FrameInput, evs: seq<Event>, i: nat, j: nat)
    requires i < |evs| && i < j <= |evs|
    ensures var s0 := Start(w, h, start, d, first);
            (Run(s0, evs[..i]).running && !Run(s0, evs[..i + 1]).running) <==>
              (evs[i].TickEvent? && Ticks(evs[..i]) == StartSeconds - 1)
    ensures var s0 := Start(w, h, start, d, first);
            Run(s0, evs[..i]).running && !Run(s0, evs[..i + 1]).running ==> Run(s0, evs[..i + 1]).timeLeft == 0
    ensures var s0 := Start(w, h, start, d, first);
            !Run(s0, evs[..i]).running ==> !Run(s0, evs[..j]).running
  {
    var s0 := Start(w, h, start, d, first);
    assert evs[..i + 1] == evs[..i] + [evs[i]];
    CountAppend((ev: Event) => ev.TickEvent?, evs[..i], [evs[i]]);
    assert evs[..j] == evs[..i] + evs[i..j];
    CountAppend((ev: Event) => ev.TickEvent?, evs[..i], evs[i..j]);
    SessionCountdown(w, h, start, d, first, evs[..i]);
    SessionCountdown(w, h, start, d, first, evs[..i + 1]);
    SessionCountdown(w, h, start, d, first, evs[..j]);
  }

  /** After the game is over nothing but the paddle and the canvas size can
      change: score, clock and croissants are frozen. */
  lemma {:induction false} GameOverFreezes(s: State, evs: seq<Event>)
    requires !s.running
    ensures Run(s, evs).running == s.running
    ensures Run(s, evs).score == s.score
    ensures Run(s, evs).timeLeft == s.timeLeft
    ensures Run(s, evs).croissants == s.croissants
    decreases |evs|
  {
    if |evs| > 0 {
      GameOverFreezes(Step(s, evs[0]), evs[1..]);
    }
  }

  /** The frame loop and the timer need no ordering between them unless
      the tick is the one that ends the game. */
  lemma FrameTickCommute(s: State, input: FrameInput)
    requires !s.running || s.timeLeft > 1
    ensures Frame(Tick(s), input) == Tick(Frame(s, input))
  {
  }

  /** The narrow canvas of Geometry.RightNudgeLeavesMargin is reached by an
      ordinary frame: on an 80-pixel canvas every running frame leaves a
      70-pixel paddle pinned at the margin, from where the game's ArrowRight
      would move it to 2 while the clamped nudge keeps it at 8. */
  lemma NarrowCanvasNudge(s: State, input: FrameInput)
    requires s.running && s.width == 80 && s.paddle.baseWidth == BaseWidthFor(80)
    requires input.later >= s.startTime
    ensures Frame(s, input).paddle == Paddle(28, 70, 8.0)
    ensures Nudge(Frame(s, input).paddle, 80, ArrowRight).x == 2.0
    ensures NudgeClamped(Frame(s, input).paddle, 80, ArrowRight).x == 8.0
  {
    assert BaseWidthFor(80) == 28;
    var f := Factor(input.later - s.startTime);
    assert WidthAt(28, f) == 70;
  }
}

=== FILE: sweep.dfy ===
/** The update loop as the game writes it: walk the croissant list from the
    last index down to the first, move the croissant in place, and splice it
    out when it is caught (scoring) or missed. Walking backwards means a
    removal never shifts an index still to be visited. */
module Sweep {
  import opened Croissants

  /** Removes the element at index `i`, as `splice(i, 1)` does. */
  function RemoveAt<T>(s: seq<T>, i: nat): (r: seq<T>)
    requires i < |s|
    ensures |r| == |s| - 1
  {
    s[..i] + s[i + 1..]
  }

  /** Splicing keeps the elements before `i` and shifts the rest down by one. */
  lemma RemoveAtShifts<T>(s: seq<T>, i: nat)
    requires i < |s|
    ensures forall j :: 0 <= j < i ==> RemoveAt(s, i)[j] == s[j]
    ensures forall j :: i <= j < |s| - 1 ==> RemoveAt(s, i)[j] == s[j + 1]
  {
  }

  /** The pass over a suffix is the pass over the suffix one shorter plus
      the fate of the element in front. */
  lemma PassFront(cs: seq<Croissant>, i: nat, move: Croissant -> Croissant, judge: Croissant -> Fate)
    requires i < |cs|
    ensures var a := move(cs[i]);
            var fate := judge(a);
            var rest := Pass(cs[i + 1..], move, judge);
            var here := Pass(cs[i..], move, judge);
            && here.caught == rest.caught + (if fate == Caught then 1 else 0)
            && here.missed == rest.missed + (if fate == Missed then 1 else 0)
            && here.survivors == (if fate == Kept then [a] + rest.survivors else rest.survivors)
  {
    assert cs[i..][1..] == cs[i + 1..];
  }

  /** What the loop holds after visiting every index from `k` on: the
      first `k` croissants untouched, followed by the survivors of the pass
      over the rest, with `gained` and `missed` its tallies. */
  ghost predicate Swept(cs0: seq<Croissant>, k: nat, cs: seq<Croissant>, gained: nat, missed: nat,
                        move: Croissant -> Croissant, judge: Croissant -> Fate)
  {
    && k <= |cs0|
    && cs == cs0[..k] + Pass(cs0[k..], move, judge).survivors
    && gained == Pass(cs0[k..], move, judge).caught
    && missed == Pass(cs0[k..], move, judge).missed
  }

  /** Overwriting the element just after `pre` in place. */
  lemma ReplaceAfter<T>(pre: seq<T>, x: T, y: T, post: seq<T>)
    ensures (pre + [x] + post)[|pre| := y] == pre + ([y] + post)
  {
    var s := (pre + [x] + post)[|pre| := y];
    assert forall j :: 0 <= j < |s| ==> s[j] == (pre + ([y] + post))[j];
  }

  /** Overwriting, then splicing out, the element just after `pre`. */
  lemma RemoveAfter<T>(pre: seq<T>, x: T, y: T, post: seq<T>)
    ensures RemoveAt((pre + [x] + post)[|pre| := y], |pre|) == pre + post
  {
    ReplaceAfter(pre, x, y, post);
    assert (pre + ([y] + post))[..|pre|] == pre;
    assert (pre + ([y] + post))[|pre| + 1..] == post;
  }

  /** A kept croissant at `k - 1`, moved in place, extends the swept
      suffix by one. */
  lemma KeepStep(cs0: seq<Croissant>, k: nat, cs: seq<Croissant>,
                 move: Croissant -> Croissant, judge: Croissant -> Fate)
    requires 0 < k <= |cs0|
    requires cs == cs0[..k] + Pass(cs0[k..], move, judge).survivors
    requires judge(move(cs0[k - 1])) == Kept
    ensures cs[k - 1 := move(cs0[k - 1])] == cs0[..k - 1] + Pass(cs0[k - 1..], move, judge).survivors
  {
    var i := k - 1;
    PassFront(cs0, i, move, judge);
    assert cs0[..k] == cs0[..i] + [cs0[i]];
    ReplaceAfter(cs0[..i], cs0[i], move(cs0[i]), Pass(cs0[k..], move, judge).survivors);
  }

  /** A caught or missed croissant at `k - 1`, moved in place and spliced
      out, extends the swept suffix by one. */
  lemma DropStep(cs0: seq<Croissant>, k: nat, cs: seq<Croissant>,
                 move: Croissant -> Croissant, judge: Croissant -> Fate)
    requires 0 < k <= |cs0|
    requires cs == cs0[..k] + Pass(cs0[k..], move, judge).survivors
    requires judge(move(cs0[k - 1])) != Kept
    ensures RemoveAt(cs[k - 1 := move(cs0[k - 1])], k - 1) == cs0[..k - 1] + Pass(cs0[k - 1..], move, judge).survivors
  {
    var i := k - 1;
    PassFront(cs0, i, move, judge);
    assert cs0[..k] == cs0[..i] + [cs0[i]];
    RemoveAfter(cs0[..i], cs0[i], move(cs0[i]), Pass(cs0[k..], move, judge).survivors);
  }

  /** The loop body for index `k - 1`: move the croissant in place, then
      splice it out and count it if the verdict is caught or, failing that,
      missed. */
  method Visit(cs0: seq<Croissant>, k: nat, cs: seq<Croissant>, gained: nat, missed: nat,
               move: Croissant -> Croissant, judge: Croissant -> Fate)
    returns (cs': seq<Croissant>, gained': nat, missed': nat)
    requires 0 < k
    requires Swept(cs0, k, cs, gained, missed, move, judge)
    ensures Swept(cs0, k - 1, cs', gained', missed', move, judge)
  {
    var i := k - 1;
    PassFront(cs0, i, move, judge);
    assert cs[i] == cs0[i];
    var c := move(cs[i]);
    cs' := cs[i := c];
    gained', missed' := gained, missed;
    var fate := judge(c);
    if fate == Caught {
      DropStep(cs0, k, cs, move, judge);
      cs' := RemoveAt(cs', i);
      gained' := gained + 1;
    } else if fate == Missed {
      DropStep(cs0, k, cs, move, judge);
      cs' := RemoveAt(cs', i);
      missed' := missed + 1;
    } else {
      KeepStep(cs0, k, cs, move, judge);
    }
  }

  /** The reverse-order splice loop computes exactly the functional pass:
      the same survivors in the same order, `gained` equal to the number of
      catches, and `missed` equal to the number of misses. A frame runs it
      with `Mover` and `Judge`. */
  method UpdateCroissants(cs0: seq<Croissant>, move: Croissant -> Croissant, judge: Croissant -> Fate)
    returns (cs: seq<Croissant>, gained: nat, missed: nat)
    ensures cs == Pass(cs0, move, judge).survivors
    ensures gained == Pass(cs0, move, judge).caught
    ensures missed == Pass(cs0, move, judge).missed
  {
    cs, gained, missed := cs0, 0, 0;
    var k := |cs0|;
    assert cs0[..k] == cs0;
    while k > 0
      invariant Swept(cs0, k, cs, gained, missed, move, judge)
      decreases k
    {
      cs, gained, missed := Visit(cs0, k, cs, gained, missed, move, judge);
      k := k - 1;
    }
    assert cs0[0..] == cs0;
  }
}

=== FILE: util.dfy ===
/** Small numeric and sequence helpers shared by the game model: JavaScript's
    `Math.min`/`Math.max`/`Math.round` on the values the game uses, and the
    filter/count/map reference definitions the update pass is compared with. */
module Util {

  function Min(a: int, b: int): (r: int)
    ensures r <= a && r <= b
    ensures r == a || r == b
  {
    if a <= b then a else b
  }

  function Max(a: int, b: int): (r: int)
    ensures r >= a && r >= b
    ensures r == a || r == b
  {
    if a >= b then a else b
  }

  function MinReal(a: real, b: real): (r: real)
    ensures r <= a && r <= b
    ensures r == a || r == b
  {
    if a <= b then a else b
  }

  function MaxReal(a: real, b: real): (r: real)
    ensures r >= a && r >= b
    ensures r == a || r == b
  {
    if a >= b then a else b
  }

  /** `Math.round`: the nearest integer, halves rounded up. */
  function Round(x: real): (r: int)
    ensures r as real - 0.5 <= x < r as real + 0.5
  {
    (x + 0.5).Floor
  }

  lemma RoundMonotone(x: real, y: real)
    requires x <= y
    ensures Round(x) <= Round(y)
  {
    assert Round(x) as real - 0.5 <= x <= y < Round(y) as real + 0.5;
  }

  /** Multiplying by a non-negative number keeps the order. */
  lemma MulMonotone(a: real, x: real, y: real)
    requires 0.0 <= a && x <= y
    ensures a * x <= a * y
  {
    assert a * y - a * x == a * (y - x);
  }

  /** The elements of `s` that satisfy `p`, in their original order. */
  function Filter<T>(p: T -> bool, s: seq<T>): (r: seq<T>)
    ensures |r| <= |s|
    ensures forall x :: x in r ==> x in s && p(x)
  {
    if |s| == 0 then []
    else if p(s[0]) then [s[0]] + Filter(p, s[1..])
    else Filter(p, s[1..])
  }

  /** How many elements of `s` satisfy `p`. */
  function Count<T>(p: T -> bool, s: seq<T>): (n: nat)
    ensures n <= |s|
  {
    if |s| == 0 then 0
    else (if p(s[0]) then 1 else 0) + Count(p, s[1..])
  }

  /** `f` applied to every element of `s`, position by position. */
  function MapSeq<T, U>(f: T -> U, s: seq<T>): (r: seq<U>)
    ensures |r| == |s|
    ensures forall i :: 0 <= i < |s| ==> r[i] == f(s[i])
  {
    seq(|s|, i requires 0 <= i < |s| => f(s[i]))
  }
}
